=== FILE: README.md ===
# A ReAct question-answering agent, modelled in Dafny

This project models the deterministic core of a small question-answering agent built on a
chat-completion model, following the ReAct pattern (think, act, observe):

- **Reply parsers** (`parse_final_answer`, `parse_action`): extract a final answer or a tool
  call `Action: <tool>[argument]` from a model reply (module `Parse`).
- **Label validation** (`guess_domain`, `guess_complexity`): turn the classifier's reply into
  a domain or difficulty label, with fallbacks (module `Classify`).
- **The agent loop** (`run_react_loop`): call the model, read the reply, run the requested tool,
  append the observation, and repeat for at most `max_steps` calls (module `React`).
- **Tools** (`run_tool`, `math_tool`, `python_tool`, `reflect_tool`): a case-insensitive
  registry (module `Tools`).
- **Prompts** (`get_system_prompt`, `get_extract_prompt`): system-prompt lookup with fallback to
  the default entry (module `Prompts`).
- **Dataset projection** (the loop of `parse_json_input`): keep `input`, and keep `output` and
  `domain` when present (module `Records`).

Supporting modules:

- `Wrappers` holds `Option` and `Result`.
- `Text` holds the Python string operations the source relies on: `strip`, `split()`,
  `split(":", 1)`, `splitlines`, `lower`, `in`, and `"\n".join`.
- `Chat` holds the outcome of one chat-completion call.

The chat-completion service, Python's `eval` and Python's `compile` are oracles:

- The model is a total function from the conversation so far to a `CallResult`. The k-th call
  therefore sees exactly the messages the loop has built.
- `eval` and `compile` are the two fields of an `Interpreter` value.

The loop is a recursive function over a decreasing step budget. It is written once over an
`Agent`, which is a reply reader paired with a tool runner. `React.RunReactLoop` instantiates
it with the two parsers and `run_tool`.

## Model

| member | source | states |
|---|---|---|
| Chat.Received | src/agent.py:35-38 | a successful call yields `Ok`; an empty content gives no text, otherwise the text is the whitespace-trimmed content, a slice of it bounded by whitespace |
| Text.Trim | src/agent.py:103 | `strip` returns a slice of the input with only whitespace removed at either end, and the result begins and ends with a non-space |
| Text.Words | src/agent.py:75 | `split()` gives non-empty words free of whitespace, none exactly when the text is all whitespace, and otherwise a first word that is the maximal run of non-whitespace after the leading whitespace |
| Text.FirstWord | src/agent.py:75 | the first word of a text that is not all whitespace: non-empty, free of whitespace, starting right after the leading whitespace and ending at whitespace or at the end of the text |
| Text.Lower | src/agent.py:75 | `lower()` keeps the length; each ASCII capital becomes its small letter and every other character is kept |
| Text.LowerIdempotent | src/agent.py:75 | lower-casing twice is lower-casing once |
| Text.FirstWordLower | src/agent.py:97 | lower-casing before or after taking the first word gives the same word, so both label paths read the same token |
| Text.Lines | src/agent.py:102 | `splitlines` gives no lines for the empty text and at least one otherwise; no line holds a newline; joined by newlines the lines give the text back, less its final newline when it ends in one |
| Text.SplitOn | src/agent.py:102 | splitting at one character gives at least one piece, none holding the separator, and joining the pieces with it rebuilds the text |
| Text.LinesOfOneLine | src/agent.py:102 | a non-empty text without newlines is its own single line |
| Text.SplitJoin | src/agent.py:102 | splitting undoes joining when no part contains the separator, so the pieces of a text are the only ones that rebuild it |
| Text.FindFirst | src/agent.py:117 | `split(":", 1)` cuts at the first colon: none exactly when the text holds no colon, otherwise a position holding one with none before it |
| Classify.GuessDomain | src/agent.py:71-76 | the domain is in `DOMAINS` or is "general"; a failed call or an empty text gives "general"; otherwise a domain is returned exactly when the lower-cased first word is one, and it is that word |
| Classify.GuessDomainIgnoresCase | src/agent.py:75 | the letter case of the reply does not change the domain |
| Classify.GuessDomainEcho | src/agent.py:75-76 | a reply that is a single word of lower-case letters and underscores is returned exactly when it is one of the domains |
| Classify.GuessDomainRecognisesLabels | src/agent.py:14 | every domain label, sent back alone, is recognised |
| Classify.GuessComplexity | src/agent.py:93-98 | the level is in `COMPLEXITY_LEVELS`; a failed call, an empty text or an unknown first word gives "medium" |
| Classify.ExtremelyHardUnreachable | src/agent.py:97-98 | as written, "extremely hard" is never returned, whatever the reply |
| Classify.GuessComplexityFixed | src/agent.py:97-98 | the corrected classifier: a whole-reply match against the levels first, else the first-word rule |
| Classify.FixedDiffersOnlyOnExtremelyHard | src/agent.py:97-98 | the correction changes the answer exactly on the replies that read "extremely hard" in any case |
| Classify.FixedRecognisesEveryLevel | src/agent.py:15 | with the correction, each of the four levels sent back alone is recognised |
| Parse.LastHit | src/agent.py:115-119 | a backward scan returns a hit exactly when some element has one, and it is the hit of the last such element |
| Parse.AnswerOfLine | src/agent.py:117-118 | a line without a colon gives the whole line, stripped |
| Parse.AnswerAfterColon | src/agent.py:117-118 | a line with a colon gives the stripped text after the first colon, possibly empty |
| Parse.ParseFinalAnswer | src/agent.py:114-119 | `None` exactly when no line mentions "final answer" in any case; otherwise the answer of the last line that does |
| Parse.ParseFinalAnswerLine | src/agent.py:114-119 | the one-line reply `Final Answer: x` gives `x` back |
| Parse.MatchToolCall | src/agent.py:108-110 | a match has the shape `<tool>[argument]`: a word-character name, and an argument that runs to the last `]` |
| Parse.MatchToolCallComplete | src/agent.py:108 | every body of that shape is matched, with that tool and argument |
| Parse.ToolCallShapeUnique | src/agent.py:108 | a body has at most one reading as a tool call |
| Parse.ActionOfLine | src/agent.py:103-110 | a line yields an action only when, stripped and lower-cased, it starts with "action:" and the stripped text after the colon has the shape `<tool>[argument]` of that action |
| Parse.ActionOfLineMeaning | src/agent.py:103-110 | a line yields an action exactly when, trimmed and lower-cased, it starts with "action:" and the trimmed text after the colon is a tool call |
| Parse.ParseAction | src/agent.py:101-111 | `None` exactly when no line yields an action; otherwise the action of the last line that does, malformed action lines being skipped |
| Parse.ParseFormattedAction | src/agent.py:101-111 | `Action: <tool>[argument]` is parsed back to that tool and argument |
| Tools.MathTool | src/tools.py:22-25 | never raises: the shown value of the expression, or "ERROR: " followed by the exception's message |
| Tools.PythonTool | src/tools.py:28-35 | "OK" exactly when the code compiles; "SYNTAX ERROR: msg (line n)" exactly on a syntax error; "ERROR: " and the message exactly on any other error |
| Tools.ReflectTool | src/tools.py:38-41 | a non-empty note is echoed after the fixed prefix; an empty note gives the fixed reminder |
| Tools.ReflectToolInjective | src/tools.py:38-41 | different notes get different replies |
| Tools.RunTool | src/tools.py:44-49 | dispatches on the lower-cased name to math, python or reflect; any other name gives the unknown-tool error quoting the name as given |
| Tools.RunToolIgnoresCase | src/tools.py:48 | a registered tool answers the same under any spelling of its name |
| Tools.UnknownToolKeepsCase | src/tools.py:49 | an unregistered name is quoted verbatim, so "Calc" and "calc" get different errors |
| Tools.UnknownToolNamesTool | src/tools.py:49 | the tool name can be read back from the unknown-tool error |
| Prompts.GetSystemPrompt | src/prompts.py:21-24 | the result is one of the table's prompts: the domain's own prompt when the domain is a key, else the default prompt |
| Prompts.SystemPromptsDistinct | src/prompts.py:4-12 | no two entries of the table share a prompt |
| Prompts.PromptIdentifiesDomain | src/prompts.py:21-24 | the prompt returned tells which entry was chosen, or that the default was used |
| Prompts.LookupIsCaseSensitive | src/prompts.py:22 | "Math" gets the default prompt, not the math one |
| Prompts.GeneralIsNotDefault | src/prompts.py:5-11 | the fallback domain "general" has a prompt distinct from the default |
| Prompts.GetExtractPrompt | src/prompts.py:26-27 | `EXTRACT_SYSTEM_PROMPT` is returned for every domain, `None` and unknown names included |
| Prompts.ExtractPromptIgnoresDomain | src/prompts.py:26-27 | every domain gets the same extraction prompt |
| Records.ProjectItem | src/utils.py:13-17 | the record keeps exactly the item's fields among `input`, `output` and `domain`, values unchanged |
| Records.ParseEntries | src/utils.py:11-20 | a `KeyError` for "input" exactly when some item lacks `input`; otherwise one projected record per item, in order |
| React.ReadReply | src/agent.py:139-146 | a reply reads as a final answer whenever it holds one, and as a tool call only when it holds no final answer and an action |
| React.Loop | src/agent.py:131-156 | each turn is the model's reply to the conversation before it; the trace is the turns joined by newlines; success exactly when the last turn holds a final answer; a failed call returns its error; every other failure is the "no final answer" error; the loop stops after a tool call only when the budget is spent |
| React.Conversation | src/agent.py:124-149 | the messages the model sees: the system prompt, then the question, then two messages for each turn that called a tool |
| React.Run | src/agent.py:122-156 | at most `max_steps` calls, with the behaviour stated for the loop starting from the system prompt and the question |
| React.RunReactLoop | src/agent.py:122-156 | `ok` exactly when there is an answer and exactly when there is no error; an answer is the parsed final answer of a reply the model gave; an error is the "no final answer" message or the error of a failed call; the trace is the run's replies joined by newlines |
| React.LastTurnReplied | src/agent.py:132-137 | the last turn of a run is a reply the model gave to some conversation |
| React.ConversationGrows | src/agent.py:124-149 | the history only grows: the conversation of earlier turns is a prefix of later ones, and each tool-call turn is followed by its observation |
| React.RunAnswersAtTurn | src/agent.py:131-142 | replies that call tools until the k-th gives a final answer, with k within the budget, end the run after exactly k calls with that answer and all k turns in the trace |
| React.ReactAnswersAtTurn | src/agent.py:136-142 | the same for the agent's own parsers: actions until the last reply, whose final answer is returned |
| React.StoppedRun | src/agent.py:131-146 | a run that stops after turns that all called tools, although its next call would succeed, has made all `max_steps` calls |
| React.RunStopsAtFirstTurn | src/agent.py:139-146 | a first reply that asks for no tool ends the run after one call |
| React.NoStepsNoCall | src/agent.py:131-156 | with no steps the model is never called, and the run fails with the "no final answer" error and an empty trace |
| React.FirstCallFails | src/agent.py:132-134 | a failed first call ends the run with that call's error and an empty trace |
| React.FinalAnswerFirst | src/agent.py:139-142 | a first reply holding a final answer ends the run with it, whether or not it also holds an action |
| React.NoMoveStops | src/agent.py:144-156 | a first reply with neither a final answer nor an action ends the run after one call with the same error as an exhausted budget |
| React.AnswersDirectly | src/agent.py:139-142 | a first reply `Final Answer: x` makes the run answer `x` |

## Left out

- The HTTP transport of `chat_agent` (src/agent.py:18-46) is not modelled: it is network I/O. Its outcome is the `Chat.CallResult` datatype. The part kept is src/agent.py:35-38: success text is trimmed, and empty content becomes no text.
- `Chat.CallResult` has no case for the exceptions that escape `chat_agent`, because the model takes a decoded reply as its input. Only `requests.RequestException` is caught (src/agent.py:45). A 200 response with `"choices": []` raises `IndexError` at src/agent.py:37. A 200 response with `"choices": {}` raises `KeyError` there. A body that is not an object of objects raises `AttributeError` or `TypeError` there. Content that is truthy but not a string, such as a number or a non-empty list, raises `AttributeError` at `.strip()` on line 38. Each of these propagates out of `guess_domain`, `guess_complexity` and `run_react_loop`.
- `call_agent` (src/agent.py:49-54) and the classifier prompts of `guess_domain` and `guess_complexity` are left out: they only build the messages of the call. The classifiers are modelled from the call's result onwards.
- The request parameters `temperature`, `max_tokens` and `timeout` are not modelled, because they only affect the remote model.
- `run_react_loop`'s default `max_steps=3` (src/agent.py:122) is not modelled, because `maxSteps` is a required parameter of `React.Run` and `React.RunReactLoop`.
- `Text.Words` specifies only the first word of `split()`, because the source reads only `split()[0]` (src/agent.py:75, 97). The later words are those of the body's recursion, but the contract does not constrain them.
- The ReAct system prompt is a parameter of `React.Run`. This is forced by a defect in the source: src/agent.py:6 imports `get_react_system_prompt` from src/prompts.py, which does not define it, so `import src.agent` raises `ImportError` and no function of src/agent.py can run as shipped. The model describes what those functions do once the import is satisfied, with the prompt supplied by the caller (src/agent.py:123).
- `eval` in `math_tool` and `compile` in `python_tool` are oracles (`Tools.Interpreter`). This covers the `math` environment and its floating-point functions. No sandboxing property is claimed.
- Python's `str(...)` of an evaluated value is the oracle's `shown` field. `error.lineno` is printed in decimal, or as `None`.
- `splitlines` is modelled as splitting on `\n` only, dropping one trailing empty piece. Python also splits on `\r`, `\v`, `\f` and other line boundaries.
- `lower()`, `\w` and whitespace are modelled for ASCII only. There is no Unicode case folding or Unicode word characters.
- The regular expression `<(\w+)>\[(.*)\]` is modelled by its structure, not by a regex engine. This matches the source on bodies that contain no newline, which holds for every line that `splitlines` produces.
- `Tools.RunToolIgnoresCase` is stated only for registered names. For other names the error message quotes the name as given, so case-insensitivity does not hold there; `Tools.UnknownToolKeepsCase` shows this.
- Reading and decoding the JSON file in `parse_json_input` (src/utils.py:7-8) is file I/O. The model starts from the decoded list of objects, with one value type for all fields.
- main.py, scripts/config.py and scripts/manual_connect.py are not part of this model. They are the command line, environment configuration and an interactive console.

## Findings

| source | as written | input that shows it | evidently intended | confidence | as-written member | corrected member |
|---|---|---|---|---|---|---|
| src/agent.py:97-98 | `guess_complexity` compares only the first whitespace-separated word of the reply with `COMPLEXITY_LEVELS` | the reply "extremely hard" gives the word "extremely", which is not a level, so the result is "medium" | a reply naming one of the four levels, including the two-word "extremely hard" listed at src/agent.py:15, returns that level | high; not executed | Classify.ExtremelyHardUnreachable | Classify.GuessComplexityFixed |

=== FILE: chat.dfy ===
/**
 * The outcome of one chat-completion call (`chat_agent` in src/agent.py).
 * The HTTP exchange itself is not modelled; what the rest of the agent relies
 * on is the shape of its answer.
 */
module Chat {
  import opened Wrappers
  import opened Text

  /** A call either succeeds, carrying the stripped reply text (`None` when the
      backend sent no content), or fails with a textual error. */
  datatype CallResult = Ok(text: Option<string>) | Fail(error: string) {

    /** What `chat_agent` guarantees of every result: success text is stripped. */
    predicate Valid() {
      Ok? && text.Some? ==> IsTrimmed(text.value)
    }
  }

  /** A 200 response whose first choice carries `content` (the empty string
      when the field is missing or null): `text.strip() if text else None`. */
  function Received(content: string): (r: CallResult)
    ensures r.Ok? && r.Valid()
    ensures r.text.None? <==> content == ""
    ensures r.text.Some? ==> exists i, j :: 0 <= i <= j <= |content| && r.text.value == content[i..j]
                                 && AllSpace(content[..i]) && AllSpace(content[j..])
  {
    Ok(if content == "" then None else Some(Trim(content)))
  }
}

=== FILE: classify.dfy ===
/**
 * Domain and difficulty classification (`guess_domain`, `guess_complexity`).
 * The model call is abstracted to its `CallResult`; what remains is label
 * validation: the first word of the reply, case-folded, when it is a known
 * label, and a fixed fallback otherwise.
 */
module Classify {
  import opened Wrappers
  import opened Text
  import opened Chat

  const Domains: seq<string> := ["math", "coding", "future_prediction", "planning", "common_sense"]
  const ComplexityLevels: seq<string> := ["easy", "medium", "hard", "extremely hard"]

  const FallbackDomain: string := "general"
  const FallbackComplexity: string := "medium"

  /** `not resp["ok"] or not resp.get("text")`: no reply to read a label from. */
  predicate NoReply(resp: CallResult) {
    resp.Fail? || resp.text.None? || resp.text.value == ""
  }

  /** The label `guess_domain` reads: `text.strip().split()[0].lower()`. */
  function DomainLabel(text: string): string
    requires IsTrimmed(text) && text != ""
  {
    TrimOfTrimmed(text);
    TrimmedHasWord(text);
    Lower(FirstWord(Trim(text)))
  }

  /** The label `guess_complexity` reads: `text.strip().lower().split()[0]`. */
  function ComplexityLabel(text: string): string
    requires IsTrimmed(text) && text != ""
  {
    TrimOfTrimmed(text);
    TrimmedHasWord(text);
    AllSpaceLower(text);
    FirstWord(Lower(Trim(text)))
  }

  /** `guess_domain`: one of the five domains, or "general" when the call
      failed, the reply was empty or its first word is not a domain. */
  function GuessDomain(resp: CallResult): (d: string)
    requires resp.Valid()
    ensures d in Domains || d == FallbackDomain
    ensures NoReply(resp) ==> d == FallbackDomain
    ensures !NoReply(resp) ==> (d in Domains <==> DomainLabel(resp.text.value) in Domains)
    ensures d in Domains ==> d == DomainLabel(resp.text.value)
  {
    if NoReply(resp) then FallbackDomain
    else
      var d := DomainLabel(resp.text.value);
      if d in Domains then d else FallbackDomain
  }

  /** `guess_complexity` as written: one of the levels, or "medium" when the
      call failed, the reply was empty or its first word is not a level. */
  function GuessComplexity(resp: CallResult): (level: string)
    requires resp.Valid()
    ensures level in ComplexityLevels
    ensures NoReply(resp) ==> level == FallbackComplexity
    ensures !NoReply(resp) ==>
              (ComplexityLabel(resp.text.value) in ComplexityLevels ==> level == ComplexityLabel(resp.text.value))
    ensures !NoReply(resp) ==>
              (ComplexityLabel(resp.text.value) !in ComplexityLevels ==> level == FallbackComplexity)
  {
    if NoReply(resp) then FallbackComplexity
    else
      var level := ComplexityLabel(resp.text.value);
      if level in ComplexityLevels then level else FallbackComplexity
  }

  /** Only the first word of the reply is compared, so the two-word level
      "extremely hard" is never returned, whatever the model replies. */
  lemma ExtremelyHardUnreachable(resp: CallResult)
    requires resp.Valid()
    ensures GuessComplexity(resp) != "extremely hard"
  {
    assert !NoSpace("extremely hard") by {
      assert IsSpace("extremely hard"[9]);
    }
  }

  /** The corrected classifier: a reply that is exactly one of the levels
      (ignoring case) is taken whole, so all four levels can be returned;
      every other reply is read as before. */
  function GuessComplexityFixed(resp: CallResult): (level: string)
    requires resp.Valid()
    ensures level in ComplexityLevels
    ensures NoReply(resp) ==> level == FallbackComplexity
    ensures !NoReply(resp) && Lower(resp.text.value) in ComplexityLevels ==> level == Lower(resp.text.value)
  {
    if NoReply(resp) then FallbackComplexity
    else if Lower(resp.text.value) in ComplexityLevels then Lower(resp.text.value)
    else GuessComplexity(resp)
  }

  /** The correction changes the answer for exactly one reply, "extremely
      hard" in any letter case; everywhere else it agrees with the classifier as written. */
  lemma FixedDiffersOnlyOnExtremelyHard(resp: CallResult)
    requires resp.Valid()
    ensures (GuessComplexityFixed(resp) != GuessComplexity(resp))
            == (resp.Ok? && resp.text.Some? && Lower(resp.text.value) == "extremely hard")
  {
    ExtremelyHardUnreachable(resp);
    if !NoReply(resp) {
      var t := resp.text.value;
      var l := Lower(t);
      if l in ComplexityLevels && l != "extremely hard" {
        SingleWordLevel(t);
      }
    }
  }

  /** A reply that is, ignoring case, one of the one-word levels is read as
      that level by the classifier as written too. */
  lemma SingleWordLevel(t: string)
    requires IsTrimmed(t) && t != ""
    requires Lower(t) in ["easy", "medium", "hard"]
    ensures ComplexityLabel(t) == Lower(t)
  {
    var l := Lower(t);
    assert PlainWord(l);
    PlainWordFacts(l);
    TrimOfTrimmed(t);
    FirstWordOfWord(l);
  }

  /** Every level the prompt offers, replied verbatim, is recognised by the
      corrected classifier. */
  lemma FixedRecognisesEveryLevel(level: string)
    requires level in ComplexityLevels
    ensures GuessComplexityFixed(Ok(Some(level))) == level
  {
    if level == "extremely hard" {
      LowerOfLowercase("extremely hard");
    } else {
      assert PlainWord(level);
      PlainWordFacts(level);
    }
  }

  /** A non-empty run of lower-case letters and underscores, as every label is. */
  predicate PlainWord(w: string) {
    w != "" && forall i :: 0 <= i < |w| ==> 'a' <= w[i] <= 'z' || w[i] == '_'
  }

  lemma PlainWordFacts(w: string)
    requires PlainWord(w)
    ensures NoSpace(w) && IsTrimmed(w) && Lower(w) == w
  {
  }

  /** The domain classifier ignores letter case in the reply. */
  lemma GuessDomainIgnoresCase(t: string)
    requires IsTrimmed(t)
    ensures IsTrimmed(Lower(t))
    ensures GuessDomain(Ok(Some(Lower(t)))) == GuessDomain(Ok(Some(t)))
  {
    if t == "" {
      assert Lower(t) == "";
    } else {
      DomainLabelLower(t);
      SameLabelSameDomain(t, Lower(t));
    }
  }

  /** Two replies with the same label get the same domain. */
  lemma SameLabelSameDomain(t: string, u: string)
    requires IsTrimmed(t) && t != "" && IsTrimmed(u) && u != ""
    requires DomainLabel(t) == DomainLabel(u)
    ensures GuessDomain(Ok(Some(t))) == GuessDomain(Ok(Some(u)))
  {
    assert !NoReply(Ok(Some(t))) && !NoReply(Ok(Some(u)));
  }

  /** The domain label of a reply does not depend on its letter case. */
  lemma DomainLabelLower(t: string)
    requires IsTrimmed(t) && t != ""
    ensures IsTrimmed(Lower(t)) && Lower(t) != ""
    ensures DomainLabel(Lower(t)) == DomainLabel(t)
  {
    LowerKeepsSpace(t[0]);
    LowerKeepsSpace(t[|t| - 1]);
    TrimOfTrimmed(t);
    TrimmedHasWord(t);
    TrimOfTrimmed(Lower(t));
    FirstWordLower(t);
    LowerIdempotent(FirstWord(t));
  }

  /** A one-word reply in lower case comes back as itself exactly when it
      is a domain. */
  lemma GuessDomainEcho(w: string)
    requires PlainWord(w)
    ensures GuessDomain(Ok(Some(w))) == if w in Domains then w else FallbackDomain
  {
    PlainWordFacts(w);
    DomainLabelOfWord(w);
  }

  /** A lower-case word is its own domain label. */
  lemma DomainLabelOfWord(w: string)
    requires NoSpace(w) && IsTrimmed(w) && Lower(w) == w && w != ""
    ensures DomainLabel(w) == w
  {
    TrimOfTrimmed(w);
    FirstWordOfWord(w);
  }

  /** Every domain label, replied verbatim, is recognised; "general", which the
      prompt also offers, comes back as the fallback it is. */
  lemma GuessDomainRecognisesLabels(name: string)
    requires name in Domains || name == FallbackDomain
    ensures GuessDomain(Ok(Some(name))) == name
  {
    assert PlainWord(name);
    GuessDomainEcho(name);
  }
}

=== FILE: parse.dfy ===
/**
 * The two reply parsers of the ReAct agent (`parse_final_answer` and
 * `parse_action`). Both read the reply line by line from the last line
 * backwards and stop at the first line that qualifies; a line that does not
 * qualify is skipped, never fatal.
 */
module Parse {
  import opened Wrappers
  import opened Text

  /** A tool invocation requested by the model. */
  datatype Action = Action(tool: string, argument: string)

  /** Scanning `xs` from its last element towards its first, the first
      element on which `f` hits, and what `f` says of it. */
  function LastHit<T, U>(xs: seq<T>, f: T -> Option<U>): (r: Option<U>)
    ensures r.None? <==> forall i :: 0 <= i < |xs| ==> f(xs[i]).None?
    ensures r.Some? ==> exists i :: 0 <= i < |xs| && f(xs[i]) == r && forall j :: i < j < |xs| ==> f(xs[j]).None?
    decreases |xs|
  {
    if |xs| == 0 then None
    else
      var hit := f(xs[|xs| - 1]);
      if hit.Some? then hit else LastHit(xs[..|xs| - 1], f)
  }

  // ---------------------------------------------------------------- final answer

  /** A line mentions the final answer when "final answer" occurs in it, in any letter case. */
  predicate MentionsFinalAnswer(line: string) {
    Contains(Lower(line), "final answer")
  }

  /** `i` is the position of the first colon of `line`. */
  predicate FirstColon(line: string, i: int) {
    0 <= i < |line| && line[i] == ':' && ':' !in line[..i]
  }

  /** The answer on such a line: the stripped text after the first colon
      (possibly empty), or the whole stripped line when it has no colon. */
  function AnswerOfLine(line: string): (a: string)
    ensures ':' !in line ==> a == Trim(line)
  {
    match FindFirst(line, ':')
    case Some(i) => Trim(line[i + 1..])
    case None => Trim(line)
  }

  /** With a colon, the answer is the stripped text after the first one. */
  lemma AnswerAfterColon(line: string, i: nat)
    requires FirstColon(line, i)
    ensures AnswerOfLine(line) == Trim(line[i + 1..])
  {
    assert FindFirst(line, ':') == Some(i);
  }

  function FinalOfLine(line: string): Option<string> {
    if MentionsFinalAnswer(line) then Some(AnswerOfLine(line)) else None
  }

  /** `i` is the last of `lines` that mentions the final answer. */
  predicate LastFinalLine(lines: seq<string>, i: int) {
    && 0 <= i < |lines|
    && MentionsFinalAnswer(lines[i])
    && forall j :: i < j < |lines| ==> !MentionsFinalAnswer(lines[j])
  }

  /** `parse_final_answer`: `None` exactly when no line mentions the final
      answer; otherwise the answer on the last line that does. */
  function ParseFinalAnswer(text: string): (r: Option<string>)
    ensures r.None? <==> forall i :: 0 <= i < |Lines(text)| ==> !MentionsFinalAnswer(Lines(text)[i])
    ensures r.Some? ==> exists i :: LastFinalLine(Lines(text), i) && r.value == AnswerOfLine(Lines(text)[i])
  {
    FinalScan(Lines(text));
    LastHit(Lines(text), FinalOfLine)
  }

  /** The backward scan for final-answer lines, in terms of the lines. */
  lemma FinalScan(lines: seq<string>)
    ensures var r := LastHit(lines, FinalOfLine);
            r.Some? ==> exists i :: LastFinalLine(lines, i) && r.value == AnswerOfLine(lines[i])
  {
    var r := LastHit(lines, FinalOfLine);
    if r.Some? {
      var i :| 0 <= i < |lines| && FinalOfLine(lines[i]) == r && forall j :: i < j < |lines| ==> FinalOfLine(lines[j]).None?;
      assert LastFinalLine(lines, i);
    }
  }

  // ---------------------------------------------------------------- action

  /** Python's `\w` restricted to ASCII. */
  predicate IsWordChar(c: char) {
    ('a' <= c <= 'z') || ('A' <= c <= 'Z') || ('0' <= c <= '9') || c == '_'
  }

  /** A non-empty run of word characters: what `(\w+)` captures. */
  predicate IsToolName(s: string) {
    s != "" && forall i :: 0 <= i < |s| ==> IsWordChar(s[i])
  }

  /** Length of the leading run of word characters. */
  function WordCharRun(s: string): (n: nat)
    ensures n <= |s|
    ensures forall i :: 0 <= i < n ==> IsWordChar(s[i])
    ensures n == |s| || !IsWordChar(s[n])
  {
    if |s| > 0 && IsWordChar(s[0]) then 1 + WordCharRun(s[1..]) else 0
  }

  /** What `re.match(r"<(\w+)>\[(.*)\]", body)` accepts with groups
      `a.tool` and `a.argument`, on a single line: the body begins with
      `<tool>[argument]`, and no `]` follows (the greedy `.*` runs to the last
      `]`). Text after that last `]` is allowed, the match being anchored at
      the start only. */
  predicate ToolCallShape(body: string, a: Action) {
    var t := |a.tool|;
    var n := t + |a.argument| + 4;
    && IsToolName(a.tool)
    && n <= |body|
    && body[0] == '<'
    && body[1..t + 1] == a.tool
    && body[t + 1] == '>'
    && body[t + 2] == '['
    && body[t + 3..n - 1] == a.argument
    && body[n - 1] == ']'
    && ']' !in body[n..]
  }

  /** The text `<tool>[argument]` followed by text without `]` has that shape. */
  lemma ToolCallText(a: Action, rest: string)
    requires IsToolName(a.tool) && ']' !in rest
    ensures ToolCallShape("<" + a.tool + ">[" + a.argument + "]" + rest, a)
  {
    var body := "<" + a.tool + ">[" + a.argument + "]" + rest;
    var t := |a.tool|;
    var n := t + |a.argument| + 4;
    assert body[1..t + 1] == a.tool;
    assert body[t + 3..n - 1] == a.argument;
    assert body[n..] == rest;
  }

  /** The regular-expression match of one action body. Bodies come from
      single lines, so `.` never meets a newline here. */
  function MatchToolCall(body: string): (r: Option<Action>)
    ensures r.Some? ==> ToolCallShape(body, r.value)
  {
    if |body| == 0 || body[0] != '<' then None
    else
      var n := WordCharRun(body[1..]);
      if n == 0 || |body| < n + 3 || body[n + 1] != '>' || body[n + 2] != '[' then None
      else
        var tail := body[n + 3..];
        match FindLast(tail, ']')
        case None => None
        case Some(j) =>
          var a := Action(body[1..n + 1], tail[..j]);
          assert body[n + 3..n + 3 + j] == tail[..j];
          assert body[n + j + 4..] == tail[j + 1..];
          Some(a)
  }

  /** Conversely, every body of the accepted shape is matched, with the
      groups the shape names: `MatchToolCall(body) == Some(a)` exactly when
      `ToolCallShape(body, a)`. */
  lemma MatchToolCallComplete(body: string, a: Action)
    requires ToolCallShape(body, a)
    ensures MatchToolCall(body) == Some(a)
  {
    ShapeName(body, a);
    ShapeArgument(body, a);
  }

  /** The name of a shaped body is the word-character run after `<`. */
  lemma ShapeName(body: string, a: Action)
    requires ToolCallShape(body, a)
    ensures WordCharRun(body[1..]) == |a.tool| && body[1..|a.tool| + 1] == a.tool
  {
    var t := |a.tool|;
    assert body[1..][..t] == a.tool;
    assert body[1..][t] == '>';
    RunStopsAt(body[1..], a.tool);
  }

  /** The argument of a shaped body runs from `[` to the last `]`. */
  lemma ShapeArgument(body: string, a: Action)
    requires ToolCallShape(body, a)
    ensures var tail := body[|a.tool| + 3..];
            FindLast(tail, ']') == Some(|a.argument|) && tail[..|a.argument|] == a.argument
  {
    var t := |a.tool|;
    var m := |a.argument|;
    var tail := body[t + 3..];
    assert tail[..m] == a.argument;
    assert tail[m + 1..] == body[t + m + 4..];
    LastBracket(tail, m);
  }

  lemma RunStopsAt(s: string, name: string)
    requires IsToolName(name) && |name| < |s| && s[..|name|] == name && !IsWordChar(s[|name|])
    ensures WordCharRun(s) == |name|
  {
  }

  lemma LastBracket(tail: string, m: nat)
    requires m < |tail| && tail[m] == ']' && ']' !in tail[m + 1..]
    ensures FindLast(tail, ']') == Some(m)
  {
  }

  /** The shape determines the action. */
  lemma ToolCallShapeUnique(body: string, a: Action, b: Action)
    requires ToolCallShape(body, a) && ToolCallShape(body, b)
    ensures a == b
  {
    MatchToolCallComplete(body, a);
    MatchToolCallComplete(body, b);
  }

  /** An action line: stripped, it starts with "action:" in any letter case,
      and the stripped text after its first colon is a tool call. */
  function ActionOfLine(line: string): (r: Option<Action>)
    ensures r.Some? ==> "action:" <= Lower(Trim(line)) && ToolCallShape(Trim(Trim(line)[7..]), r.value)
  {
    var l := Trim(line);
    if "action:" <= Lower(l) then
      ActionPrefixColon(l);
      match FindFirst(l, ':')
      case Some(i) => MatchToolCall(Trim(l[i + 1..]))
      case None => None
    else None
  }

  /** `i` is the last of `lines` that is an action line. */
  predicate LastActionLine(lines: seq<string>, i: int) {
    && 0 <= i < |lines|
    && ActionOfLine(lines[i]).Some?
    && forall j :: i < j < |lines| ==> ActionOfLine(lines[j]).None?
  }

  /** `parse_action`: `None` exactly when no line is an action line;
      otherwise the action on the last one. */
  function ParseAction(text: string): (r: Option<Action>)
    ensures r.None? <==> forall i :: 0 <= i < |Lines(text)| ==> ActionOfLine(Lines(text)[i]).None?
    ensures r.Some? ==> exists i :: LastActionLine(Lines(text), i) && r == ActionOfLine(Lines(text)[i])
  {
    ActionScan(Lines(text));
    LastHit(Lines(text), ActionOfLine)
  }

  /** The backward scan for action lines, in terms of the lines. */
  lemma ActionScan(lines: seq<string>)
    ensures var r := LastHit(lines, ActionOfLine);
            r.Some? ==> exists i :: LastActionLine(lines, i) && r == ActionOfLine(lines[i])
  {
    var r := LastHit(lines, ActionOfLine);
    if r.Some? {
      var i :| 0 <= i < |lines| && ActionOfLine(lines[i]) == r && forall j :: i < j < |lines| ==> ActionOfLine(lines[j]).None?;
      assert LastActionLine(lines, i);
    }
  }

  /** When an action line starts with "action:" in any case, its first colon
      is the one of that prefix. */
  lemma ActionPrefixColon(l: string)
    requires "action:" <= Lower(l)
    ensures FindFirst(l, ':') == Some(6)
  {
    var lower := Lower(l);
    forall k | 0 <= k < 6
      ensures l[k] != ':'
    {
      assert lower[k] == "action:"[k] && lower[k] == LowerChar(l[k]);
    }
    assert lower[6] == ':';
    assert FirstColon(l, 6);
  }

  /** What makes a line an action line, stated without the scanning
      machinery: stripped, it begins with "action:" in any case, and the rest,
      stripped, has the tool-call shape of the action returned. */
  lemma ActionOfLineMeaning(line: string, a: Action)
    ensures ActionOfLine(line) == Some(a)
            <==> ("action:" <= Lower(Trim(line)) && ToolCallShape(Trim(Trim(line)[7..]), a))
  {
    var l := Trim(line);
    if "action:" <= Lower(l) {
      ActionPrefixColon(l);
      if ToolCallShape(Trim(l[7..]), a) {
        MatchToolCallComplete(Trim(l[7..]), a);
      }
    }
  }

  /** How the agent's prompt asks for a tool call: `Action: <tool>[argument]`. */
  function FormatAction(a: Action): string {
    "Action: " + ToolCallBody(a)
  }

  function ToolCallBody(a: Action): string {
    "<" + a.tool + ">[" + a.argument + "]"
  }

  /** The single line `Action: <tool>[argument]` is an action line for that action. */
  lemma FormattedActionLine(a: Action)
    requires IsToolName(a.tool)
    ensures ActionOfLine(FormatAction(a)) == Some(a)
  {
    FormattedActionPrefix(a);
    ActionLineBody(FormatAction(a));
    FormattedActionBody(a);
  }

  lemma FormattedActionPrefix(a: Action)
    ensures "action:" <= Lower(Trim(FormatAction(a)))
  {
    FormattedActionTrim(a);
    ActionPrefixLower(ToolCallBody(a));
  }

  lemma FormattedActionBody(a: Action)
    requires IsToolName(a.tool)
    ensures MatchToolCall(Trim(Trim(FormatAction(a))[7..])) == Some(a)
  {
    FormattedActionTrim(a);
    ToolCallBodyMatches(a);
  }

  /** `<tool>[argument]` is matched with that tool and argument. */
  lemma ToolCallBodyMatches(a: Action)
    requires IsToolName(a.tool)
    ensures MatchToolCall(ToolCallBody(a)) == Some(a)
  {
    var body := ToolCallBody(a);
    ToolCallText(a, "");
    assert body + "" == body;
    MatchToolCallComplete(body, a);
  }

  /** On a line that starts with "action:", the tool call is read from the
      stripped text after the prefix. */
  lemma ActionLineBody(line: string)
    requires "action:" <= Lower(Trim(line))
    ensures ActionOfLine(line) == MatchToolCall(Trim(Trim(line)[7..]))
  {
    ActionPrefixColon(Trim(line));
  }

  /** Stripping the formatted line, and the text after its colon. */
  lemma FormattedActionTrim(a: Action)
    ensures Trim(FormatAction(a)) == FormatAction(a)
    ensures Trim(FormatAction(a)[7..]) == ToolCallBody(a)
  {
    FormattedLineTrimmed(a);
    FormattedBodyTrim(a);
  }

  lemma FormattedLineTrimmed(a: Action)
    ensures Trim(FormatAction(a)) == FormatAction(a)
  {
    var line := FormatAction(a);
    assert line[0] == 'A' && line[|line| - 1] == ']';
    TrimOfTrimmed(line);
  }

  lemma FormattedBodyTrim(a: Action)
    ensures Trim(FormatAction(a)[7..]) == ToolCallBody(a)
  {
    var body := ToolCallBody(a);
    assert FormatAction(a)[7..] == " " + body;
    assert body[0] == '<' && body[|body| - 1] == ']';
    TrimAfterSpace(body);
  }

  lemma ActionPrefixLower(body: string)
    ensures "action:" <= Lower("Action: " + body)
  {
    LowerConcat("Action: ", body);
    assert Lower("Action: ") == "action: ";
  }

  /** A reply consisting of one well-formed action line parses back to that
      action, whatever brackets the argument itself contains. */
  lemma ParseFormattedAction(a: Action)
    requires IsToolName(a.tool) && '\n' !in a.argument
    ensures ParseAction(FormatAction(a)) == Some(a)
  {
    var line := FormatAction(a);
    assert '\n' !in a.tool by {
      assert forall i :: 0 <= i < |a.tool| ==> IsWordChar(a.tool[i]);
    }
    assert '\n' !in line;
    LinesOfOneLine(line);
    FormattedActionLine(a);
  }

  /** The single line "Final Answer: x" mentions the final answer and carries `x`. */
  lemma FinalAnswerLineOf(x: string)
    requires IsTrimmed(x)
    ensures FinalOfLine("Final Answer: " + x) == Some(x)
  {
    FinalAnswerLineMentions(x);
    FinalAnswerLineAnswer(x);
  }

  lemma FinalAnswerLineMentions(x: string)
    ensures MentionsFinalAnswer("Final Answer: " + x)
  {
    FinalAnswerPrefixLower(x);
    StartsWithMention(Lower("Final Answer: " + x));
  }

  lemma FinalAnswerLineAnswer(x: string)
    requires IsTrimmed(x)
    ensures AnswerOfLine("Final Answer: " + x) == x
  {
    var line := "Final Answer: " + x;
    FinalAnswerPrefixColon(x);
    assert line[13..] == " " + x;
    TrimAfterSpace(x);
  }

  lemma FinalAnswerPrefixLower(x: string)
    ensures "final answer" <= Lower("Final Answer: " + x)
  {
    LowerConcat("Final Answer: ", x);
    assert Lower("Final Answer: ") == "final answer: ";
  }

  lemma StartsWithMention(s: string)
    requires "final answer" <= s
    ensures Contains(s, "final answer")
  {
    assert OccursAt(s, "final answer", 0);
  }

  lemma FinalAnswerPrefixColon(x: string)
    ensures FindFirst("Final Answer: " + x, ':') == Some(12)
  {
    var line := "Final Answer: " + x;
    assert line[..12] == "Final Answer";
    assert line[12] == ':';
  }

  /** A one-line reply "Final Answer: x" parses back to `x`, which may be empty. */
  lemma ParseFinalAnswerLine(x: string)
    requires IsTrimmed(x) && '\n' !in x
    ensures ParseFinalAnswer("Final Answer: " + x) == Some(x)
  {
    var line := "Final Answer: " + x;
    assert '\n' !in line;
    LinesOfOneLine(line);
    FinalAnswerLineOf(x);
  }
}

=== FILE: prompts.dfy ===
/**
 * The fixed system prompts (src/prompts.py): one per domain plus a default,
 * and the prompt for the answer-extraction pass.
 */
module Prompts {
  import opened Wrappers

  const DefaultKey: string := "default"

  /** `SYSTEM_PROMPTS`. */
  const SystemPrompts: map<string, string> := map[
    "default" := "You are a helpful assistant. Reply with only the final answer, no explanation.",
    "math" := "You are a math problem solver. Provide only the final numeric answer.",
    "coding" := "You are a coding assistant. Provide clear, concise code solutions.",
    "future_prediction" := "You are a prediction assistant. Provide accurate predictions based on available information.",
    "planning" := "You are a planning assistant. Provide clear, actionable plans.",
    "common_sense" := "You are a common sense reasoning assistant. Provide logical answers based on common knowledge.",
    "general" := "You are a helpful assistant that provides accurate answers."
  ]

  /** `EXTRACT_SYSTEM_PROMPT`. */
  const ExtractSystemPrompt: string :=
    "You are an answer extraction assistant. Given a problem description and a draft solution, "
    + "output only the final answer string in plain text. Do not use markdown, LaTeX dollar signs, "
    + "or \\boxed. Do not include any explanation or extra words such as 'Final answer'. "
    + "Return just the answer string."

  /** `get_system_prompt`: the domain's own prompt when the domain is a key of
      the table (matched exactly, letter case included), the default prompt
      for `None`, the empty string and every other name. */
  function GetSystemPrompt(domain: Option<string>): (p: string)
    ensures p in SystemPrompts.Values
    ensures domain.Some? && domain.value in SystemPrompts ==> p == SystemPrompts[domain.value]
    ensures domain.None? || domain.value !in SystemPrompts ==> p == SystemPrompts[DefaultKey]
  {
    if domain.Some? && domain.value != "" && domain.value in SystemPrompts then SystemPrompts[domain.value]
    else SystemPrompts[DefaultKey]
  }

  /** No two entries of the table share a prompt. */
  lemma SystemPromptsDistinct(k1: string, k2: string)
    requires k1 in SystemPrompts && k2 in SystemPrompts && k1 != k2
    ensures SystemPrompts[k1] != SystemPrompts[k2]
  {
    assert |SystemPrompts[k1]| != |SystemPrompts[k2]|;
  }

  /** The prompt tells which entry was chosen: receiving the prompt of entry
      `k` means the domain was `k`, or `k` is the default and the domain had no
      entry of its own. */
  lemma PromptIdentifiesDomain(domain: Option<string>, k: string)
    requires k in SystemPrompts && GetSystemPrompt(domain) == SystemPrompts[k]
    ensures domain == Some(k) || (k == DefaultKey && (domain.None? || domain.value !in SystemPrompts - {DefaultKey}))
  {
    if domain.Some? && domain.value in SystemPrompts && domain.value != k {
      SystemPromptsDistinct(domain.value, k);
    } else if domain.None? || domain.value !in SystemPrompts {
      if k != DefaultKey {
        SystemPromptsDistinct(DefaultKey, k);
      }
    }
  }

  /** Lookup is case-sensitive: "Math" gets the default prompt, not the math one. */
  lemma LookupIsCaseSensitive()
    ensures GetSystemPrompt(Some("Math")) == SystemPrompts[DefaultKey]
    ensures GetSystemPrompt(Some("Math")) != SystemPrompts["math"]
  {
    SystemPromptsDistinct(DefaultKey, "math");
  }

  /** The fallback domain "general" has a prompt of its own, distinct from the default. */
  lemma GeneralIsNotDefault()
    ensures GetSystemPrompt(Some("general")) != GetSystemPrompt(None)
  {
    SystemPromptsDistinct("general", DefaultKey);
  }

  /** `get_extract_prompt`: the domain argument is accepted and ignored. */
  function GetExtractPrompt(domain: Option<string>): (p: string)
    ensures p == ExtractSystemPrompt
  {
    ExtractSystemPrompt
  }

  /** Every domain gets the same extraction prompt. */
  lemma ExtractPromptIgnoresDomain(d1: Option<string>, d2: Option<string>)
    ensures GetExtractPrompt(d1) == GetExtractPrompt(d2) == ExtractSystemPrompt
  {
  }
}

=== FILE: react.dfy ===
/**
 * The think-act-observe loop (`run_react_loop` in src/agent.py). The model is
 * an oracle from the conversation so far to a `CallResult`; each turn it
 * either gives a final answer (the run succeeds), asks for a tool (the
 * observation is appended and the loop goes on) or does neither (the run
 * stops). The number of calls is bounded by `max_steps`.
 */
module React {
  import opened Wrappers
  import opened Text
  import opened Chat
  import opened Parse
  import opened Tools

  datatype Role = System | User | Assistant

  datatype Message = Message(role: Role, content: string)

  /** The chat-completion backend, as seen by the loop. */
  type Model = seq<Message> -> CallResult

  /** How one reply is read: a final answer, else a tool call, else neither. */
  datatype Move = Answer(answer: string) | Call(action: Action) | Neither

  /** What the loop needs besides the model: how to read a reply and what a
      tool call observes. */
  datatype Agent = Agent(read: string -> Move, act: Action -> string)

  /** The dictionary `run_react_loop` returns. */
  datatype LoopResult = LoopResult(ok: bool, answer: Option<string>, trace: string, error: Option<string>)

  /** A whole run: its result, the text of every turn in order, and how many
      times the model was called. */
  datatype Episode = Episode(result: LoopResult, turns: seq<string>, calls: nat)

  /** One error for both ways of ending without an answer: running out of
      steps and a turn with neither a final answer nor an action. */
  const NoFinalAnswer: string := "No final answer produced within max_steps."
  const ObservationPrefix: string := "[Observation]: "

  /** `response.get("text") or ""`. */
  function TextOf(resp: CallResult): string
    requires resp.Ok?
  {
    resp.text.GetOr("")
  }

  function Max0(n: int): nat {
    if n > 0 then n else 0
  }

  function Last(turns: seq<string>): string
    requires |turns| > 0
  {
    turns[|turns| - 1]
  }

  /** `run_react_loop`'s reading of a reply: `parse_final_answer` first, and
      only when it finds nothing, `parse_action`. */
  function ReadReply(text: string): (m: Move)
    ensures m.Answer? <==> ParseFinalAnswer(text).Some?
    ensures m.Answer? ==> ParseFinalAnswer(text) == Some(m.answer)
    ensures m.Call? <==> ParseFinalAnswer(text).None? && ParseAction(text).Some?
    ensures m.Call? ==> ParseAction(text) == Some(m.action)
  {
    match ParseFinalAnswer(text)
    case Some(answer) => Answer(answer)
    case None =>
      match ParseAction(text)
      case Some(action) => Call(action)
      case None => Neither
  }

  /** The agent of src/agent.py: its two parsers and `run_tool`. */
  function ReActAgent(py: Interpreter): Agent {
    Agent(ReadReply, (a: Action) => RunTool(a.tool, a.argument, py))
  }

  /** A turn after which the loop goes on: it asks for a tool. */
  predicate Continues(agent: Agent, text: string) {
    agent.read(text).Call?
  }

  predicate AllContinue(agent: Agent, turns: seq<string>) {
    forall i :: 0 <= i < |turns| ==> Continues(agent, turns[i])
  }

  /** The observation appended after a continuing turn. */
  function Observation(agent: Agent, text: string): Message
    requires Continues(agent, text)
  {
    Message(User, ObservationPrefix + agent.act(agent.read(text).action))
  }

  /** The conversation the model sees after `turns`: the system prompt and
      the question, then each turn's text followed by its observation. */
  function Conversation(question: string, systemPrompt: string, turns: seq<string>, agent: Agent): (c: seq<Message>)
    requires AllContinue(agent, turns)
    ensures |c| == 2 + 2 * |turns|
    ensures c[0] == Message(System, systemPrompt) && c[1] == Message(User, question)
    decreases |turns|
  {
    if |turns| == 0 then [Message(System, systemPrompt), Message(User, question)]
    else
      var last := Last(turns);
      Conversation(question, systemPrompt, turns[..|turns| - 1], agent) + [Message(Assistant, last), Observation(agent, last)]
  }

  // ------------------------------------------------------------ what a run is

  /** `text` is what the model replied to `conversation`. */
  predicate RepliedTo(model: Model, conversation: seq<Message>, text: string) {
    model(conversation).Ok? && TextOf(model(conversation)) == text
  }

  /** The run extends the turns `start` it began with, and each later turn is
      the model's reply to the conversation before it. */
  predicate FollowsModel(question: string, systemPrompt: string, model: Model, agent: Agent,
                         start: seq<string>, e: Episode)
  {
    && |start| <= |e.turns|
    && e.turns[..|start|] == start
    && (forall i :: 0 <= i < |e.turns| - 1 ==> Continues(agent, e.turns[i]))
    && (forall i :: |start| <= i < |e.turns| ==>
          AllContinue(agent, e.turns[..i]) && RepliedTo(model, Conversation(question, systemPrompt, e.turns[..i], agent), e.turns[i]))
  }

  /** How a run with `budget` steps left after `start` ends. */
  predicate EndsAsSpecified(question: string, systemPrompt: string, model: Model, agent: Agent,
                            budget: int, start: seq<string>, e: Episode)
  {
    && e.result.trace == Join(e.turns, '\n')
    && (e.calls == |e.turns| || e.calls == |e.turns| + 1)
    && e.calls <= |start| + Max0(budget)
    // success exactly when the last turn holds a final answer, which is returned
    && (e.result.ok <==> |e.turns| > 0 && agent.read(Last(e.turns)).Answer?)
    && (e.result.ok ==> e.result.answer == Some(agent.read(Last(e.turns)).answer) && e.result.error.None?)
    && (!e.result.ok ==> e.result.answer.None? && e.result.error.Some?)
    // a failed call ends the run with that call's error
    && (e.calls == |e.turns| + 1 ==>
          && AllContinue(agent, e.turns)
          && model(Conversation(question, systemPrompt, e.turns, agent)).Fail?
          && e.result.error == Some(model(Conversation(question, systemPrompt, e.turns, agent)).error))
    // otherwise a failure is the common "no final answer" error
    && (e.calls == |e.turns| && !e.result.ok ==> e.result.error == Some(NoFinalAnswer))
    // and the loop stops after a continuing turn only when the budget is spent
    && (e.calls == |e.turns| && (|e.turns| == 0 || Continues(agent, Last(e.turns))) ==> e.calls == |start| + Max0(budget))
  }

  // ------------------------------------------------------------ the loop

  /** The loop from the point where `turns` have been taken, `messages` is the
      conversation so far and `budget` iterations of `range(max_steps)` remain. */
  function Loop(budget: int, question: string, systemPrompt: string, model: Model, agent: Agent,
                messages: seq<Message>, turns: seq<string>): (e: Episode)
    requires AllContinue(agent, turns)
    requires messages == Conversation(question, systemPrompt, turns, agent)
    ensures FollowsModel(question, systemPrompt, model, agent, turns, e)
    ensures EndsAsSpecified(question, systemPrompt, model, agent, budget, turns, e)
    decreases budget
  {
    if budget <= 0 then
      var e := Episode(LoopResult(false, None, Join(turns, '\n'), Some(NoFinalAnswer)), turns, |turns|);
      StopHere(question, systemPrompt, model, agent, budget, turns, e);
      e
    else
      var response := model(messages);
      if response.Fail? then
        var e := Episode(LoopResult(false, None, Join(turns, '\n'), Some(response.error)), turns, |turns| + 1);
        StopHere(question, systemPrompt, model, agent, budget, turns, e);
        e
      else
        var text := TextOf(response);
        var turns' := turns + [text];
        var messages' := messages + [Message(Assistant, text)];
        match agent.read(text)
        case Answer(answer) =>
          var e := Episode(LoopResult(true, Some(answer), Join(turns', '\n'), None), turns', |turns'|);
          StopAfterTurn(question, systemPrompt, model, agent, budget, turns, text, e);
          e
        case Neither =>
          var e := Episode(LoopResult(false, None, Join(turns', '\n'), Some(NoFinalAnswer)), turns', |turns'|);
          StopAfterTurn(question, systemPrompt, model, agent, budget, turns, text, e);
          e
        case Call(a) =>
          var observation := ObservationPrefix + agent.act(a);
          ConversationStep(question, systemPrompt, turns, text, agent);
          var e := Loop(budget - 1, question, systemPrompt, model, agent, messages' + [Message(User, observation)], turns');
          ContinueAfterTurn(question, systemPrompt, model, agent, budget, turns, text, e);
          e
  }

  /** The conversation after one more continuing turn. */
  lemma ConversationStep(question: string, systemPrompt: string, turns: seq<string>, text: string, agent: Agent)
    requires AllContinue(agent, turns) && Continues(agent, text)
    ensures AllContinue(agent, turns + [text])
    ensures Conversation(question, systemPrompt, turns + [text], agent)
            == Conversation(question, systemPrompt, turns, agent) + [Message(Assistant, text), Observation(agent, text)]
  {
    assert (turns + [text])[..|turns|] == turns;
  }

  /** The loop stopping without taking another turn: the budget is spent or
      the call failed. */
  lemma StopHere(question: string, systemPrompt: string, model: Model, agent: Agent,
                 budget: int, turns: seq<string>, e: Episode)
    requires AllContinue(agent, turns)
    requires e.turns == turns && !e.result.ok && e.result.answer.None? && e.result.trace == Join(turns, '\n')
    requires budget <= 0 ==> e.calls == |turns| && e.result.error == Some(NoFinalAnswer)
    requires budget > 0 ==>
      && e.calls == |turns| + 1
      && model(Conversation(question, systemPrompt, turns, agent)).Fail?
      && e.result.error == Some(model(Conversation(question, systemPrompt, turns, agent)).error)
    ensures FollowsModel(question, systemPrompt, model, agent, turns, e)
    ensures EndsAsSpecified(question, systemPrompt, model, agent, budget, turns, e)
  {
    assert turns[..|turns|] == turns;
    if |turns| > 0 {
      assert Continues(agent, Last(turns));
    }
  }

  /** The loop stopping right after the turn `text`: a final answer, or
      neither a final answer nor an action. */
  lemma StopAfterTurn(question: string, systemPrompt: string, model: Model, agent: Agent,
                      budget: int, turns: seq<string>, text: string, e: Episode)
    requires AllContinue(agent, turns) && budget > 0
    requires RepliedTo(model, Conversation(question, systemPrompt, turns, agent), text)
    requires !Continues(agent, text)
    requires e.turns == turns + [text] && e.calls == |e.turns| && e.result.trace == Join(e.turns, '\n')
    requires agent.read(text).Answer? ==> e.result == LoopResult(true, Some(agent.read(text).answer), e.result.trace, None)
    requires agent.read(text).Neither? ==> e.result == LoopResult(false, None, e.result.trace, Some(NoFinalAnswer))
    ensures FollowsModel(question, systemPrompt, model, agent, turns, e)
    ensures EndsAsSpecified(question, systemPrompt, model, agent, budget, turns, e)
  {
    assert e.turns[..|turns|] == turns;
    forall i | |turns| <= i < |e.turns|
      ensures AllContinue(agent, e.turns[..i])
      ensures RepliedTo(model, Conversation(question, systemPrompt, e.turns[..i], agent), e.turns[i])
    {
      assert i == |turns|;
    }
  }

  /** The loop going on after the continuing turn `text`: whatever the rest
      of the run does, seen from before that turn it is still a run. */
  lemma ContinueAfterTurn(question: string, systemPrompt: string, model: Model, agent: Agent,
                          budget: int, turns: seq<string>, text: string, e: Episode)
    requires AllContinue(agent, turns) && budget > 0 && Continues(agent, text)
    requires RepliedTo(model, Conversation(question, systemPrompt, turns, agent), text)
    requires AllContinue(agent, turns + [text])
    requires FollowsModel(question, systemPrompt, model, agent, turns + [text], e)
    requires EndsAsSpecified(question, systemPrompt, model, agent, budget - 1, turns + [text], e)
    ensures FollowsModel(question, systemPrompt, model, agent, turns, e)
    ensures EndsAsSpecified(question, systemPrompt, model, agent, budget, turns, e)
  {
    FollowsAfterTurn(question, systemPrompt, model, agent, turns, text, e);
  }

  /** The first half of `ContinueAfterTurn`: the extended run still follows
      the model from before the turn. */
  lemma FollowsAfterTurn(question: string, systemPrompt: string, model: Model, agent: Agent,
                         turns: seq<string>, text: string, e: Episode)
    requires AllContinue(agent, turns) && Continues(agent, text)
    requires RepliedTo(model, Conversation(question, systemPrompt, turns, agent), text)
    requires FollowsModel(question, systemPrompt, model, agent, turns + [text], e)
    ensures FollowsModel(question, systemPrompt, model, agent, turns, e)
  {
    var turns' := turns + [text];
    assert e.turns[..|turns'|] == turns';
    assert e.turns[..|turns|] == turns'[..|turns|] == turns;
    assert e.turns[|turns|] == text;
  }

  /** The run `run_react_loop(question, max_steps)` performs. */
  function Run(question: string, maxSteps: int, systemPrompt: string, model: Model, agent: Agent): (e: Episode)
    ensures e.calls <= Max0(maxSteps)
    ensures FollowsModel(question, systemPrompt, model, agent, [], e)
    ensures EndsAsSpecified(question, systemPrompt, model, agent, maxSteps, [], e)
  {
    Loop(maxSteps, question, systemPrompt, model, agent, Conversation(question, systemPrompt, [], agent), [])
  }

  /** `run_react_loop` with the agent's own parsers and tools. The system
      prompt is a parameter. The answer is the final answer of a reply the
      model gave, and the trace is the replies of the run joined by newlines. */
  function RunReactLoop(question: string, maxSteps: int, systemPrompt: string, model: Model, py: Interpreter): (r: LoopResult)
    ensures r.ok <==> r.answer.Some?
    ensures r.ok <==> r.error.None?
    ensures r.ok ==> exists c :: model(c).Ok? && ParseFinalAnswer(TextOf(model(c))) == r.answer
    ensures !r.ok ==> r.error == Some(NoFinalAnswer) || exists c :: model(c).Fail? && r.error == Some(model(c).error)
    ensures r.trace == Join(Run(question, maxSteps, systemPrompt, model, ReActAgent(py)).turns, '\n')
  {
    var e := Run(question, maxSteps, systemPrompt, model, ReActAgent(py));
    LastTurnReplied(question, systemPrompt, model, ReActAgent(py), e);
    assert e.result.ok ==> ParseFinalAnswer(Last(e.turns)) == e.result.answer;
    e.result
  }

  /** The last turn of a run is a reply the model gave. */
  lemma LastTurnReplied(question: string, systemPrompt: string, model: Model, agent: Agent, e: Episode)
    requires FollowsModel(question, systemPrompt, model, agent, [], e)
    ensures |e.turns| > 0 ==> exists c :: model(c).Ok? && TextOf(model(c)) == Last(e.turns)
  {
    if |e.turns| > 0 {
      var i := |e.turns| - 1;
      assert RepliedTo(model, Conversation(question, systemPrompt, e.turns[..i], agent), e.turns[i]);
    }
  }

  // ------------------------------------------------------------ properties of runs

  /** The history only grows: the conversation before a turn is a prefix of
      every later one, and each turn sits in it as an assistant message
      followed by its observation. */
  lemma {:induction false} ConversationGrows(question: string, systemPrompt: string, agent: Agent,
                                             turns: seq<string>, i: nat)
    requires AllContinue(agent, turns) && i <= |turns|
    ensures AllContinue(agent, turns[..i])
    ensures Conversation(question, systemPrompt, turns[..i], agent) <= Conversation(question, systemPrompt, turns, agent)
    ensures i < |turns| ==>
              && Conversation(question, systemPrompt, turns, agent)[2 + 2 * i] == Message(Assistant, turns[i])
              && Conversation(question, systemPrompt, turns, agent)[3 + 2 * i] == Observation(agent, turns[i])
    decreases |turns|
  {
    if i < |turns| {
      var init := turns[..|turns| - 1];
      assert AllContinue(agent, init);
      var c := Conversation(question, systemPrompt, turns, agent);
      var c' := Conversation(question, systemPrompt, init, agent);
      assert c == c' + [Message(Assistant, Last(turns)), Observation(agent, Last(turns))];
      if i == |turns| - 1 {
        assert turns[..i] == init;
      } else {
        ConversationGrows(question, systemPrompt, agent, init, i);
        assert init[..i] == turns[..i];
        assert c[2 + 2 * i] == c'[2 + 2 * i];
        assert c[3 + 2 * i] == c'[3 + 2 * i];
      }
    } else {
      assert turns[..i] == turns;
    }
  }

  /** The replies `texts` as the model gives them: each is its reply to the
      conversation of the turns before it. */
  predicate Scripted(question: string, systemPrompt: string, model: Model, agent: Agent, texts: seq<string>) {
    forall j :: 0 <= j < |texts| ==>
      AllContinue(agent, texts[..j]) && RepliedTo(model, Conversation(question, systemPrompt, texts[..j], agent), texts[j])
  }

  /** `e` is a run given the replies `texts`, which ask for tools until the
      last one, and no more replies than steps. */
  predicate ScriptedRun(question: string, maxSteps: int, systemPrompt: string, model: Model, agent: Agent,
                        texts: seq<string>, e: Episode)
  {
    && FollowsModel(question, systemPrompt, model, agent, [], e)
    && EndsAsSpecified(question, systemPrompt, model, agent, maxSteps, [], e)
    && 1 <= |texts| <= maxSteps
    && AllContinue(agent, texts[..|texts| - 1])
    && Scripted(question, systemPrompt, model, agent, texts)
  }

  /** One more turn of a run agrees with the script: the run neither stops
      before it nor replies differently. */
  lemma ScriptStep(question: string, maxSteps: int, systemPrompt: string, model: Model, agent: Agent,
                   texts: seq<string>, e: Episode, m: nat)
    requires ScriptedRun(question, maxSteps, systemPrompt, model, agent, texts, e)
    requires 0 < m <= |texts| && SharePrefix(e.turns, texts, m - 1)
    ensures SharePrefix(e.turns, texts, m)
  {
    var before := texts[..m - 1];
    assert AllContinue(agent, before) && RepliedTo(model, Conversation(question, systemPrompt, before, agent), texts[m - 1]);
    if |e.turns| == m - 1 {
      assert e.turns == before;
      StoppedRun(question, maxSteps, systemPrompt, model, agent, e);
      assert false;
    }
    SameReply(question, systemPrompt, model, agent, e, before, texts[m - 1]);
    SnocPrefix(e.turns, texts, m);
  }

  /** `a` and `b` agree on their first `m` elements. */
  predicate SharePrefix(a: seq<string>, b: seq<string>, m: nat) {
    m <= |a| && m <= |b| && a[..m] == b[..m]
  }

  /** A run that stops after turns that all ask for tools, although the next
      call would succeed, has spent its whole budget. */
  lemma StoppedRun(question: string, budget: int, systemPrompt: string, model: Model, agent: Agent, e: Episode)
    requires EndsAsSpecified(question, systemPrompt, model, agent, budget, [], e)
    requires AllContinue(agent, e.turns)
    requires model(Conversation(question, systemPrompt, e.turns, agent)).Ok?
    ensures e.calls == |e.turns| == Max0(budget)
  {
    if |e.turns| > 0 {
      assert Continues(agent, Last(e.turns));
    }
  }

  /** A run that has taken the turns `before` takes `text` next when that is
      the model's reply to them. */
  lemma SameReply(question: string, systemPrompt: string, model: Model, agent: Agent, e: Episode,
                  before: seq<string>, text: string)
    requires FollowsModel(question, systemPrompt, model, agent, [], e)
    requires |before| < |e.turns| && e.turns[..|before|] == before
    requires AllContinue(agent, before) && RepliedTo(model, Conversation(question, systemPrompt, before, agent), text)
    ensures e.turns[|before|] == text
  {
  }

  /** The run agrees with a script of replies for as long as the script's
      turns ask for tools. */
  lemma RunFollowsScript(question: string, maxSteps: int, systemPrompt: string, model: Model,
                         agent: Agent, texts: seq<string>, e: Episode)
    requires ScriptedRun(question, maxSteps, systemPrompt, model, agent, texts, e)
    ensures SharePrefix(e.turns, texts, |texts|)
  {
    forall k | 0 < k <= |texts| && SharePrefix(e.turns, texts, k - 1)
      ensures SharePrefix(e.turns, texts, k)
    {
      ScriptStep(question, maxSteps, systemPrompt, model, agent, texts, e, k);
    }
    PrefixInduction(e.turns, texts, |texts|);
  }

  /** Agreement on a prefix that extends one element at a time reaches the
      whole length `n`. */
  lemma {:induction false} PrefixInduction(a: seq<string>, b: seq<string>, n: nat)
    requires forall k :: 0 < k <= n && SharePrefix(a, b, k - 1) ==> SharePrefix(a, b, k)
    ensures SharePrefix(a, b, n)
    decreases n
  {
    if n > 0 {
      PrefixInduction(a, b, n - 1);
    }
  }

  /** Two sequences that agree before `m - 1` and at `m - 1` agree before `m`. */
  lemma SnocPrefix(a: seq<string>, b: seq<string>, m: nat)
    requires 0 < m <= |a| && m <= |b|
    requires a[..m - 1] == b[..m - 1] && a[m - 1] == b[m - 1]
    ensures a[..m] == b[..m]
  {
    assert a[..m] == a[..m - 1] + [a[m - 1]];
    assert b[..m] == b[..m - 1] + [b[m - 1]];
  }

  /** A run given replies whose turns ask for tools until turn k gives a final
      answer, with k within the budget, answers after exactly k calls with
      that turn's answer, and its trace is the k replies joined by newlines. */
  lemma RunAnswersAtTurn(question: string, maxSteps: int, systemPrompt: string, model: Model,
                         agent: Agent, texts: seq<string>)
    requires 1 <= |texts| <= maxSteps
    requires AllContinue(agent, texts[..|texts| - 1])
    requires agent.read(Last(texts)).Answer?
    requires Scripted(question, systemPrompt, model, agent, texts)
    ensures Run(question, maxSteps, systemPrompt, model, agent)
            == Episode(LoopResult(true, Some(agent.read(Last(texts)).answer), Join(texts, '\n'), None), texts, |texts|)
  {
    var e := Run(question, maxSteps, systemPrompt, model, agent);
    assert ScriptedRun(question, maxSteps, systemPrompt, model, agent, texts, e);
    RunFollowsScript(question, maxSteps, systemPrompt, model, agent, texts, e);
    AnswerEndsRun(question, systemPrompt, model, agent, texts, e);
    AnsweredRun(question, maxSteps, systemPrompt, model, agent, e);
  }

  /** A run that has taken the replies `texts`, the last of which holds a
      final answer, takes no further turn. */
  lemma AnswerEndsRun(question: string, systemPrompt: string, model: Model, agent: Agent,
                      texts: seq<string>, e: Episode)
    requires FollowsModel(question, systemPrompt, model, agent, [], e)
    requires 1 <= |texts| && SharePrefix(e.turns, texts, |texts|)
    requires agent.read(Last(texts)).Answer?
    ensures e.turns == texts
  {
    var k := |texts|;
    assert e.turns[..k][k - 1] == texts[..k][k - 1];
    var t := e.turns[k - 1];
    assert !Continues(agent, t);
    assert texts[..k] == texts;
  }

  /** A run whose last turn holds a final answer succeeds with it, after
      one call per turn. */
  lemma AnsweredRun(question: string, budget: int, systemPrompt: string, model: Model, agent: Agent, e: Episode)
    requires EndsAsSpecified(question, systemPrompt, model, agent, budget, [], e)
    requires |e.turns| > 0 && agent.read(Last(e.turns)).Answer?
    ensures e == Episode(LoopResult(true, Some(agent.read(Last(e.turns)).answer), Join(e.turns, '\n'), None), e.turns, |e.turns|)
  {
    assert AllContinue(agent, e.turns) ==> Continues(agent, Last(e.turns));
  }

  /** The conversation of the first call: the system prompt, then the question. */
  lemma FirstConversation(question: string, systemPrompt: string, agent: Agent)
    ensures AllContinue(agent, [])
    ensures Conversation(question, systemPrompt, [], agent) == [Message(System, systemPrompt), Message(User, question)]
  {
  }

  /** A first reply that asks for no tool ends the run after one call, with
      that reply as its only turn. */
  lemma RunStopsAtFirstTurn(question: string, maxSteps: int, systemPrompt: string, model: Model, agent: Agent)
    requires maxSteps >= 1
    requires model([Message(System, systemPrompt), Message(User, question)]).Ok?
    requires !Continues(agent, TextOf(model([Message(System, systemPrompt), Message(User, question)])))
    ensures var e := Run(question, maxSteps, systemPrompt, model, agent);
            && e.turns == [TextOf(model([Message(System, systemPrompt), Message(User, question)]))]
            && e.calls == 1
  {
    var e := Run(question, maxSteps, systemPrompt, model, agent);
    FirstConversation(question, systemPrompt, agent);
    assert e.turns[..0] == [];
    assert |e.turns| > 0;
    assert e.turns[0] == TextOf(model([Message(System, systemPrompt), Message(User, question)]));
    assert |e.turns| == 1;
  }

  /** With no steps the model is never called and the run fails with the
      "no final answer" error. */
  lemma NoStepsNoCall(question: string, maxSteps: int, systemPrompt: string, model: Model, py: Interpreter)
    requires maxSteps <= 0
    ensures Run(question, maxSteps, systemPrompt, model, ReActAgent(py)).calls == 0
    ensures RunReactLoop(question, maxSteps, systemPrompt, model, py) == LoopResult(false, None, "", Some(NoFinalAnswer))
  {
  }

  /** A failed first call ends the run with that call's error and an empty
      trace. */
  lemma FirstCallFails(question: string, maxSteps: int, systemPrompt: string, model: Model, py: Interpreter)
    requires maxSteps >= 1
    requires model([Message(System, systemPrompt), Message(User, question)]).Fail?
    ensures RunReactLoop(question, maxSteps, systemPrompt, model, py)
            == LoopResult(false, None, "", Some(model([Message(System, systemPrompt), Message(User, question)]).error))
  {
    var e := Run(question, maxSteps, systemPrompt, model, ReActAgent(py));
    FirstConversation(question, systemPrompt, ReActAgent(py));
    assert e.turns[..0] == [];
  }

  /** A final answer takes priority: a first reply holding a final-answer
      line ends the run with that answer after one call, whether or not it
      also holds an action. */
  lemma FinalAnswerFirst(question: string, maxSteps: int, systemPrompt: string, model: Model, py: Interpreter)
    requires maxSteps >= 1
    requires model([Message(System, systemPrompt), Message(User, question)]).Ok?
    requires ParseFinalAnswer(TextOf(model([Message(System, systemPrompt), Message(User, question)]))).Some?
    ensures var t := TextOf(model([Message(System, systemPrompt), Message(User, question)]));
            RunReactLoop(question, maxSteps, systemPrompt, model, py) == LoopResult(true, ParseFinalAnswer(t), t, None)
  {
    RunStopsAtFirstTurn(question, maxSteps, systemPrompt, model, ReActAgent(py));
  }

  /** A first reply with neither a final answer nor an action ends the run
      after one call with the same error as running out of steps, however
      many steps remain. */
  lemma NoMoveStops(question: string, maxSteps: int, systemPrompt: string, model: Model, py: Interpreter)
    requires maxSteps >= 1
    requires model([Message(System, systemPrompt), Message(User, question)]).Ok?
    requires ParseFinalAnswer(TextOf(model([Message(System, systemPrompt), Message(User, question)]))).None?
    requires ParseAction(TextOf(model([Message(System, systemPrompt), Message(User, question)]))).None?
    ensures Run(question, maxSteps, systemPrompt, model, ReActAgent(py)).calls == 1
    ensures var t := TextOf(model([Message(System, systemPrompt), Message(User, question)]));
            RunReactLoop(question, maxSteps, systemPrompt, model, py) == LoopResult(false, None, t, Some(NoFinalAnswer))
  {
    RunStopsAtFirstTurn(question, maxSteps, systemPrompt, model, ReActAgent(py));
  }

  /** Replies that parse as actions, and no final answer, until the last,
      which parses as the final answer `answer`. */
  predicate ActionsThenAnswer(texts: seq<string>, answer: string) {
    && 1 <= |texts|
    && (forall i :: 0 <= i < |texts| - 1 ==> ParseFinalAnswer(texts[i]).None? && ParseAction(texts[i]).Some?)
    && ParseFinalAnswer(Last(texts)) == Some(answer)
  }

  /** The agent of src/agent.py given replies that call tools until one
      holds a final answer answers with it, after exactly that many calls. */
  lemma ReactAnswersAtTurn(question: string, maxSteps: int, systemPrompt: string, model: Model, py: Interpreter,
                           texts: seq<string>, answer: string)
    requires ActionsThenAnswer(texts, answer) && |texts| <= maxSteps
    requires Scripted(question, systemPrompt, model, ReActAgent(py), texts)
    ensures Run(question, maxSteps, systemPrompt, model, ReActAgent(py)).calls == |texts|
    ensures RunReactLoop(question, maxSteps, systemPrompt, model, py) == LoopResult(true, Some(answer), Join(texts, '\n'), None)
  {
    ReadsAsScript(py, texts, answer);
    RunAnswersAtTurn(question, maxSteps, systemPrompt, model, ReActAgent(py), texts);
  }

  /** Such replies read, for the agent, as tool calls and then that answer. */
  lemma ReadsAsScript(py: Interpreter, texts: seq<string>, answer: string)
    requires ActionsThenAnswer(texts, answer)
    ensures AllContinue(ReActAgent(py), texts[..|texts| - 1])
    ensures ReActAgent(py).read(Last(texts)) == Answer(answer)
  {
    var init := texts[..|texts| - 1];
    forall i | 0 <= i < |init|
      ensures Continues(ReActAgent(py), init[i])
    {
      assert init[i] == texts[i];
    }
  }

  /** A first reply `Final Answer: x` ends the run with `x`. */
  lemma AnswersDirectly(question: string, maxSteps: int, systemPrompt: string, model: Model, py: Interpreter, x: string)
    requires maxSteps >= 1 && IsTrimmed(x) && '\n' !in x
    requires model([Message(System, systemPrompt), Message(User, question)]) == Ok(Some("Final Answer: " + x))
    ensures RunReactLoop(question, maxSteps, systemPrompt, model, py) == LoopResult(true, Some(x), "Final Answer: " + x, None)
  {
    ParseFinalAnswerLine(x);
    FinalAnswerFirst(question, maxSteps, systemPrompt, model, py);
  }
}

=== FILE: records.dfy ===
/**
 * The per-item projection of `parse_json_input` (src/utils.py). Reading and
 * decoding the JSON file is not modelled; the loop starts from the decoded
 * list of objects, each a map from field name to value.
 */
module Records {
  import opened Wrappers

  /** The fields an entry keeps. */
  const KeptFields: set<string> := {"input", "output", "domain"}

  /** Python's `KeyError`, naming the missing key. */
  datatype KeyError = KeyError(key: string)

  /** `record` is `item` cut down to the kept fields, values unchanged. */
  predicate Projects<V(==)>(item: map<string, V>, record: map<string, V>) {
    && record.Keys == item.Keys * KeptFields
    && forall k :: k in record ==> record[k] == item[k]
  }

  /** One iteration of the loop: `input` always, `output` and `domain`
      when the item has them, nothing else. */
  function ProjectItem<V(==)>(item: map<string, V>): (record: map<string, V>)
    requires "input" in item
    ensures Projects(item, record)
    ensures "input" in record
  {
    var withInput := map["input" := item["input"]];
    var withOutput := if "output" in item then withInput["output" := item["output"]] else withInput;
    if "domain" in item then withOutput["domain" := item["domain"]] else withOutput
  }

  /** The loop of `parse_json_input`: the projected entries, one per item
      and in the same order, or the `KeyError` of the first item without
      an `input` field. */
  method ParseEntries<V(==)>(items: seq<map<string, V>>) returns (r: Result<seq<map<string, V>>, KeyError>)
    ensures r.Failure? <==> exists i :: 0 <= i < |items| && "input" !in items[i]
    ensures r.Failure? ==> r.error == KeyError("input")
    ensures r.Success? ==> |r.value| == |items|
    ensures r.Success? ==> forall i :: 0 <= i < |items| ==> Projects(items[i], r.value[i])
  {
    var parsed: seq<map<string, V>> := [];
    var i := 0;
    while i < |items|
      invariant 0 <= i <= |items|
      invariant |parsed| == i
      invariant forall j :: 0 <= j < i ==> "input" in items[j] && Projects(items[j], parsed[j])
    {
      if "input" !in items[i] {
        return Failure(KeyError("input"));
      }
      parsed := parsed + [ProjectItem(items[i])];
      i := i + 1;
    }
    return Success(parsed);
  }
}

=== FILE: text.dfy ===
/**
 * The handful of Python `str` operations the agent relies on, restricted to
 * ASCII: `strip()`, `split()` without a separator, `split(sep, 1)`,
 * `splitlines()` (on '\n' only), `lower()`, `in` and `"sep".join(...)`.
 */
module Text {
  import opened Wrappers

  /** ASCII characters for which Python's `str.isspace()` holds. */
  predicate IsSpace(c: char) {
    c == ' ' || c == '\t' || c == '\n' || c == '\r' || c == '\U{0B}' || c == '\U{0C}'
    || ('\U{1C}' <= c <= '\U{1F}')
  }

  predicate AllSpace(s: string) {
    forall i :: 0 <= i < |s| ==> IsSpace(s[i])
  }

  predicate NoSpace(s: string) {
    forall i :: 0 <= i < |s| ==> !IsSpace(s[i])
  }

  /** A string `strip()` leaves unchanged: empty, or no whitespace at either end. */
  predicate IsTrimmed(s: string) {
    s == [] || (!IsSpace(s[0]) && !IsSpace(s[|s| - 1]))
  }

  /** Length of the leading whitespace run. */
  function LeadingSpace(s: string): (n: nat)
    ensures n <= |s| && AllSpace(s[..n])
    ensures n == |s| || !IsSpace(s[n])
  {
    if |s| > 0 && IsSpace(s[0]) then
      var k := LeadingSpace(s[1..]);
      assert s[1..][..k] == s[1..k + 1];
      1 + k
    else 0
  }

  /** Length of the trailing whitespace run. */
  function TrailingSpace(s: string): (n: nat)
    ensures n <= |s| && AllSpace(s[|s| - n..])
    ensures n == |s| || !IsSpace(s[|s| - n - 1])
  {
    if |s| > 0 && IsSpace(s[|s| - 1]) then
      var init := s[..|s| - 1];
      var k := TrailingSpace(init);
      forall i | |s| - 1 - k <= i < |s|
        ensures IsSpace(s[i])
      {
        if i < |s| - 1 {
          assert s[i] == init[|init| - k..][i - (|s| - 1 - k)];
        }
      }
      1 + k
    else 0
  }

  /** Python's `s.strip()`: the middle of `s` left after removing the
      whitespace at both ends. */
  function Trim(s: string): (r: string)
    ensures IsTrimmed(r)
    ensures exists i, j :: 0 <= i <= j <= |s| && r == s[i..j] && AllSpace(s[..i]) && AllSpace(s[j..])
  {
    var i := LeadingSpace(s);
    var t := s[i..];
    var j := |t| - TrailingSpace(t);
    assert t[..j] == s[i..i + j];
    assert t[j..] == s[i + j..];
    t[..j]
  }

  /** `strip()` is the identity on a string it already leaves unchanged. */
  lemma TrimOfTrimmed(s: string)
    requires IsTrimmed(s)
    ensures Trim(s) == s
  {
    assert LeadingSpace(s) == 0;
    assert TrailingSpace(s) == 0;
  }

  /** ASCII `lower()` of one character. */
  function LowerChar(c: char): char {
    if 'A' <= c <= 'Z' then (c as int + 32) as char else c
  }

  /** Python's `s.lower()` on ASCII letters; every other character is kept. */
  function Lower(s: string): (r: string)
    ensures |r| == |s|
    ensures forall i :: 0 <= i < |s| ==> r[i] == LowerChar(s[i])
  {
    seq(|s|, i requires 0 <= i < |s| => LowerChar(s[i]))
  }

  /** Lower-casing keeps whitespace where it was. */
  lemma LowerKeepsSpace(c: char)
    ensures IsSpace(LowerChar(c)) <==> IsSpace(c)
  {
  }

  /** `sub` occurs in `s` starting at index `i`. */
  predicate OccursAt(s: string, sub: string, i: nat) {
    i + |sub| <= |s| && s[i..i + |sub|] == sub
  }

  /** Python's `sub in s`. */
  predicate Contains(s: string, sub: string) {
    exists i: nat :: i <= |s| && OccursAt(s, sub, i)
  }

  /** Index of the first occurrence of `c` in `s`, as `str.find` would report it. */
  function FindFirst(s: string, c: char): (r: Option<nat>)
    ensures r.None? <==> c !in s
    ensures r.Some? ==> r.value < |s| && s[r.value] == c && c !in s[..r.value]
  {
    if |s| == 0 then None
    else if s[0] == c then Some(0)
    else
      match FindFirst(s[1..], c)
      case None => None
      case Some(k) =>
        assert s[..k + 1] == [s[0]] + s[1..][..k];
        Some(k + 1)
  }

  /** Index of the last occurrence of `c` in `s`: where a greedy `(.*)` followed by
      `c` stops, as in the tool-call pattern `<(\w+)>\[(.*)\]`. */
  function FindLast(s: string, c: char): (r: Option<nat>)
    ensures r.None? <==> c !in s
    ensures r.Some? ==> r.value < |s| && s[r.value] == c && c !in s[r.value + 1..]
  {
    if |s| == 0 then None
    else if s[|s| - 1] == c then Some(|s| - 1)
    else
      var init := s[..|s| - 1];
      assert s == init + [s[|s| - 1]];
      match FindLast(init, c)
      case None => None
      case Some(k) =>
        assert s[k + 1..] == init[k + 1..] + [s[|s| - 1]];
        Some(k)
  }

  /** `sep.join(parts)`. */
  function Join(parts: seq<string>, sep: char): string {
    if |parts| == 0 then ""
    else if |parts| == 1 then parts[0]
    else parts[0] + [sep] + Join(parts[1..], sep)
  }

  /** Python's `s.split(sep)` with a one-character separator: the pieces
      between separators, at least one, none containing `sep`. */
  function SplitOn(s: string, sep: char): (parts: seq<string>)
    ensures |parts| >= 1
    ensures forall i :: 0 <= i < |parts| ==> sep !in parts[i]
    ensures Join(parts, sep) == s
    decreases |s|
  {
    match FindFirst(s, sep)
    case None => [s]
    case Some(i) =>
      var rest := SplitOn(s[i + 1..], sep);
      assert s == s[..i] + [sep] + s[i + 1..];
      assert ([s[..i]] + rest)[1..] == rest;
      [s[..i]] + rest
  }

  /** Splitting undoes joining whenever no part contains the separator. */
  lemma {:induction false} SplitJoin(parts: seq<string>, sep: char)
    requires |parts| >= 1
    requires forall i :: 0 <= i < |parts| ==> sep !in parts[i]
    ensures SplitOn(Join(parts, sep), sep) == parts
    decreases |parts|
  {
    if |parts| == 1 {
      assert FindFirst(parts[0], sep).None?;
    } else {
      JoinHead(parts, sep);
      SplitJoin(parts[1..], sep);
      assert parts == [parts[0]] + parts[1..];
    }
  }

  /** In a join, the first separator is the one after the first part. */
  lemma JoinHead(parts: seq<string>, sep: char)
    requires |parts| >= 2 && sep !in parts[0]
    ensures var s := Join(parts, sep);
            && FindFirst(s, sep) == Some(|parts[0]|)
            && s[..|parts[0]|] == parts[0]
            && s[|parts[0]| + 1..] == Join(parts[1..], sep)
  {
    var s := Join(parts, sep);
    assert s == parts[0] + [sep] + Join(parts[1..], sep);
    assert s[..|parts[0]|] == parts[0];
    assert s[|parts[0]|] == sep;
  }

  /** Python's `s.splitlines()` with '\n' as the only line break: the pieces
      between newlines, except that a text ending in a newline has no empty
      last line and the empty text has no lines. */
  function Lines(s: string): (lines: seq<string>)
    ensures forall i :: 0 <= i < |lines| ==> '\n' !in lines[i]
    ensures s == "" ==> lines == []
    ensures s != "" ==> |lines| >= 1
    ensures s != "" && s[|s| - 1] == '\n' ==> Join(lines, '\n') + "\n" == s
    ensures s != "" && s[|s| - 1] != '\n' ==> Join(lines, '\n') == s
  {
    var parts := SplitOn(s, '\n');
    JoinEndsWithLast(parts, '\n');
    if parts[|parts| - 1] == "" then
      JoinDropEmpty(parts, '\n');
      parts[..|parts| - 1]
    else parts
  }

  /** A join whose last part is not empty ends with that part, hence not
      with the separator when the part does not contain it. */
  lemma JoinEndsWithLast(parts: seq<string>, sep: char)
    requires |parts| >= 1 && sep !in parts[|parts| - 1]
    ensures parts[|parts| - 1] != "" ==>
              var j := Join(parts, sep); j != "" && j[|j| - 1] != sep
  {
    var last := parts[|parts| - 1];
    if |parts| > 1 && last != "" {
      assert parts == parts[..|parts| - 1] + [last];
      JoinSnoc(parts[..|parts| - 1], last, sep);
      assert Join(parts, sep)[|Join(parts, sep)| - 1] == last[|last| - 1];
    }
  }

  /** Dropping an empty last part drops the separator before it, if any. */
  lemma JoinDropEmpty(parts: seq<string>, sep: char)
    requires |parts| >= 1 && parts[|parts| - 1] == ""
    ensures |parts| == 1 ==> Join(parts, sep) == ""
    ensures |parts| > 1 ==> Join(parts, sep) == Join(parts[..|parts| - 1], sep) + [sep]
  {
    if |parts| > 1 {
      assert parts == parts[..|parts| - 1] + [""];
      JoinSnoc(parts[..|parts| - 1], "", sep);
    }
  }

  /** Joining one more part appends the separator and the part. */
  lemma {:induction false} JoinSnoc(parts: seq<string>, last: string, sep: char)
    requires |parts| >= 1
    ensures Join(parts + [last], sep) == Join(parts, sep) + [sep] + last
    decreases |parts|
  {
    if |parts| > 1 {
      assert (parts + [last])[1..] == parts[1..] + [last];
      JoinSnoc(parts[1..], last, sep);
    }
  }

  /** Length of the leading run of non-whitespace characters. */
  function WordLength(s: string): (n: nat)
    ensures n <= |s| && NoSpace(s[..n])
    ensures n == |s| || IsSpace(s[n])
  {
    if |s| > 0 && !IsSpace(s[0]) then
      var k := WordLength(s[1..]);
      assert s[1..][..k] == s[1..k + 1];
      1 + k
    else 0
  }

  /** `w` is a word of `s` starting at `i`: only whitespace before it, and
      it runs up to the end of `s` or to the next whitespace. */
  predicate WordAt(s: string, i: nat, w: string) {
    && i + |w| <= |s|
    && AllSpace(s[..i])
    && s[i..i + |w|] == w
    && (i + |w| == |s| || IsSpace(s[i + |w|]))
  }

  /** The first word of a string that is not all whitespace (`s.split()[0]`):
      the maximal run of non-whitespace after the leading whitespace. */
  function FirstWord(s: string): (w: string)
    requires !AllSpace(s)
    ensures w != "" && NoSpace(w)
    ensures WordAt(s, LeadingSpace(s), w)
  {
    var i := LeadingSpace(s);
    var t := s[i..];
    var n := WordLength(t);
    assert t[..n] == s[i..i + n];
    assert n < |t| ==> t[n] == s[i + n];
    assert s[..|s|] == s;
    t[..n]
  }

  /** Python's `s.split()`, defined as the first word followed by the words
      of the text after it. The contract pins down only the first word. */
  function Words(s: string): (ws: seq<string>)
    ensures forall i :: 0 <= i < |ws| ==> ws[i] != "" && NoSpace(ws[i])
    ensures |ws| == 0 <==> AllSpace(s)
    ensures |ws| > 0 ==> WordAt(s, LeadingSpace(s), ws[0])
    decreases |s|
  {
    if AllSpace(s) then []
    else
      var w := FirstWord(s);
      [w] + Words(s[LeadingSpace(s) + |w|..])
  }

  /** A trimmed, non-empty string has a first word. */
  lemma TrimmedHasWord(s: string)
    requires IsTrimmed(s) && s != ""
    ensures !AllSpace(s)
  {
    assert !IsSpace(s[0]);
  }

  /** A single word splits into itself. */
  lemma FirstWordOfWord(w: string)
    requires w != "" && NoSpace(w)
    ensures !AllSpace(w) && FirstWord(w) == w
  {
    assert !IsSpace(w[0]);
    assert LeadingSpace(w) == 0;
    assert w[0..] == w;
    assert WordLength(w) == |w|;
    assert w[..|w|] == w;
  }

  lemma LowerCharIdempotent(c: char)
    ensures LowerChar(LowerChar(c)) == LowerChar(c)
  {
  }

  lemma LowerIdempotent(s: string)
    ensures Lower(Lower(s)) == Lower(s)
  {
    forall i | 0 <= i < |s|
      ensures Lower(Lower(s))[i] == Lower(s)[i]
    {
      LowerCharIdempotent(s[i]);
    }
  }

  /** Lower-casing commutes with taking a slice. */
  lemma LowerSlice(s: string, i: nat, j: nat)
    requires i <= j <= |s|
    ensures Lower(s)[i..j] == Lower(s[i..j])
  {
  }

  lemma {:induction false} LeadingSpaceLower(s: string)
    ensures LeadingSpace(Lower(s)) == LeadingSpace(s)
    decreases |s|
  {
    if |s| > 0 {
      var l := Lower(s);
      LowerKeepsSpace(s[0]);
      assert IsSpace(l[0]) == IsSpace(s[0]);
      if IsSpace(s[0]) {
        assert l[1..] == Lower(s[1..]);
        LeadingSpaceLower(s[1..]);
      }
    }
  }

  lemma {:induction false} WordLengthLower(s: string)
    ensures WordLength(Lower(s)) == WordLength(s)
    decreases |s|
  {
    if |s| > 0 {
      var l := Lower(s);
      LowerKeepsSpace(s[0]);
      assert IsSpace(l[0]) == IsSpace(s[0]);
      if !IsSpace(s[0]) {
        assert l[1..] == Lower(s[1..]);
        WordLengthLower(s[1..]);
      }
    }
  }

  lemma AllSpaceLower(s: string)
    ensures AllSpace(Lower(s)) <==> AllSpace(s)
  {
    forall i | 0 <= i < |s| {
      LowerKeepsSpace(s[i]);
    }
  }

  /** The first word is the non-whitespace run after the leading whitespace. */
  lemma FirstWordUnfold(s: string)
    requires !AllSpace(s)
    ensures var t := s[LeadingSpace(s)..]; t != "" && FirstWord(s) == t[..WordLength(t)]
  {
  }

  /** Splitting and lower-casing commute on the first word: Python's
      `s.split()[0].lower()` and `s.lower().split()[0]` agree. */
  lemma FirstWordLower(s: string)
    requires !AllSpace(s)
    ensures !AllSpace(Lower(s)) && FirstWord(Lower(s)) == Lower(FirstWord(s))
  {
    AllSpaceLower(s);
    var i := LeadingSpace(s);
    var t := s[i..];
    LeadingSpaceLower(s);
    LowerSlice(s, i, |s|);
    assert Lower(s)[LeadingSpace(Lower(s))..] == Lower(t);
    WordLengthLower(t);
    var n := WordLength(t);
    FirstWordUnfold(s);
    FirstWordUnfold(Lower(s));
    assert FirstWord(Lower(s)) == Lower(t)[..n];
    LowerSlice(t, 0, n);
    assert Lower(t)[..n] == Lower(t)[0..n];
    assert t[..n] == t[0..n];
  }

  /** A text without newlines is one line (or none, when empty). */
  lemma LinesOfOneLine(s: string)
    requires '\n' !in s && s != ""
    ensures Lines(s) == [s]
  {
    assert FindFirst(s, '\n').None?;
  }

  /** Stripping a space put before a stripped string gives the string back. */
  lemma TrimAfterSpace(x: string)
    requires IsTrimmed(x)
    ensures Trim(" " + x) == x
  {
    var s := " " + x;
    assert s[1..] == x;
    if x == "" {
      assert LeadingSpace(s) == 1;
    } else {
      assert !IsSpace(x[0]);
      assert LeadingSpace(s) == 1 + LeadingSpace(x);
      assert LeadingSpace(x) == 0;
      assert TrailingSpace(x) == 0;
    }
  }

  /** Lower-casing works character by character, so it distributes over concatenation. */
  lemma LowerConcat(a: string, b: string)
    ensures Lower(a + b) == Lower(a) + Lower(b)
  {
  }

  /** A string without upper-case ASCII letters is its own lower case. */
  lemma LowerOfLowercase(s: string)
    requires forall i :: 0 <= i < |s| ==> !('A' <= s[i] <= 'Z')
    ensures Lower(s) == s
  {
  }
}

=== FILE: tools.dfy ===
/**
 * The tool registry of the ReAct agent (src/tools.py). Python's `eval` and
 * `compile` are not modelled: an `Interpreter` supplies what they would
 * report for a given input, and the tools are the error-handling shells
 * around them.
 */
module Tools {
  import opened Wrappers
  import opened Text

  /** What `str(eval(expr, ...))` produced, or the message of what it raised. */
  datatype EvalOutcome = Value(shown: string) | Raised(message: string)

  /** What `compile(code, ...)` did: compiled, raised a `SyntaxError` (with its
      message and line number, which Python may leave as `None`), or raised
      something else. */
  datatype CompileOutcome = Compiles | SyntaxError(msg: string, lineno: Option<nat>) | OtherError(message: string)

  /** The two calls into the Python interpreter the tools make. */
  datatype Interpreter = Interpreter(eval: string -> EvalOutcome, compile: string -> CompileOutcome)

  const ErrorPrefix: string := "ERROR: "
  const SyntaxErrorPrefix: string := "SYNTAX ERROR: "
  const ReflectPrefix: string := "Reflect more carefully on this aspect: "
  const ReflectDefault: string := "Reflect: " + "double-check your reasoning, assumptions, and final answer for consistency."

  /** Decimal digits of a natural number, as `str(n)` writes them. */
  function Decimal(n: nat): (s: string)
    ensures s != "" && forall i :: 0 <= i < |s| ==> '0' <= s[i] <= '9'
  {
    if n < 10 then [('0' as int + n) as char]
    else Decimal(n / 10) + [('0' as int + n % 10) as char]
  }

  /** `str(error.lineno)`. */
  function ShowLine(lineno: Option<nat>): string {
    match lineno
    case Some(n) => Decimal(n)
    case None => "None"
  }

  /** `math_tool`: never raises; the shown value of the expression, or the
      message of the exception after "ERROR: ". */
  function MathTool(expr: string, py: Interpreter): (r: string)
    ensures py.eval(expr).Value? ==> r == py.eval(expr).shown
    ensures py.eval(expr).Raised? ==> ErrorPrefix <= r && r[|ErrorPrefix|..] == py.eval(expr).message
  {
    match py.eval(expr)
    case Value(shown) => shown
    case Raised(message) => ErrorPrefix + message
  }

  /** `python_tool`: checks that the code compiles, never runs it. Each of
      the three outcomes has its own recognisable reply. */
  function PythonTool(code: string, py: Interpreter): (r: string)
    ensures r == "OK" <==> py.compile(code).Compiles?
    ensures SyntaxErrorPrefix <= r <==> py.compile(code).SyntaxError?
    ensures ErrorPrefix <= r <==> py.compile(code).OtherError?
    ensures py.compile(code).SyntaxError? ==>
              r == SyntaxErrorPrefix + py.compile(code).msg + " (line " + ShowLine(py.compile(code).lineno) + ")"
    ensures py.compile(code).OtherError? ==> r[|ErrorPrefix|..] == py.compile(code).message
  {
    match py.compile(code)
    case Compiles => "OK"
    case SyntaxError(msg, lineno) =>
      var r := SyntaxErrorPrefix + msg + " (line " + ShowLine(lineno) + ")";
      assert r[0] != ErrorPrefix[0];
      r
    case OtherError(message) =>
      var r := ErrorPrefix + message;
      assert r[0] != SyntaxErrorPrefix[0];
      r
  }

  /** `reflect_tool`: a coaching reply that echoes a non-empty note after a
      fixed prefix, or a fixed reminder when the note is empty. */
  function ReflectTool(note: string): (r: string)
    ensures note != "" ==> ReflectPrefix <= r && r[|ReflectPrefix|..] == note
    ensures note == "" ==> r == ReflectDefault
  {
    if note != "" then ReflectPrefix + note else ReflectDefault
  }

  /** The reply determines the note: no two notes get the same coaching. */
  lemma ReflectToolInjective(a: string, b: string)
    requires ReflectTool(a) == ReflectTool(b)
    ensures a == b
  {
    assert ReflectDefault[7] != ReflectPrefix[7];
    if a != "" && b != "" {
      assert a == ReflectTool(a)[|ReflectPrefix|..];
    }
  }

  /** The tools the registry knows. */
  datatype Tool = Math | Python | Reflect

  /** `TOOLS`, keyed by lower-case name. */
  const Registry: map<string, Tool> := map["math" := Math, "python" := Python, "reflect" := Reflect]

  function Invoke(tool: Tool, arg: string, py: Interpreter): string {
    match tool
    case Math => MathTool(arg, py)
    case Python => PythonTool(arg, py)
    case Reflect => ReflectTool(arg)
  }

  /** The reply for a name the registry does not know; it quotes the name as given. */
  function UnknownTool(name: string): string {
    "ERROR: unknown tool '" + name + "'"
  }

  /** `run_tool`: dispatch on the lower-cased name to one of the three tools,
      or the unknown-tool error naming the tool as the model spelled it. */
  function RunTool(name: string, arg: string, py: Interpreter): (r: string)
    ensures Lower(name) == "math" ==> r == MathTool(arg, py)
    ensures Lower(name) == "python" ==> r == PythonTool(arg, py)
    ensures Lower(name) == "reflect" ==> r == ReflectTool(arg)
    ensures Lower(name) !in {"math", "python", "reflect"} ==> r == UnknownTool(name)
  {
    var key := Lower(name);
    if key in Registry then Invoke(Registry[key], arg, py) else UnknownTool(name)
  }

  /** Lookup ignores letter case: a registered tool answers the same under
      any spelling of its name. */
  lemma RunToolIgnoresCase(name: string, arg: string, py: Interpreter)
    requires Lower(name) in Registry
    ensures RunTool(name, arg, py) == RunTool(Lower(name), arg, py)
  {
    LowerIdempotent(name);
  }

  /** For an unregistered name the error quotes the name verbatim, so there
      the case of the name does show: "Calc" and "calc" get different replies. */
  lemma UnknownToolKeepsCase(arg: string, py: Interpreter)
    ensures RunTool("Calc", arg, py) == UnknownTool("Calc")
    ensures RunTool("Calc", arg, py) != RunTool("calc", arg, py)
  {
    assert Lower("Calc") == "calc";
    LowerOfLowercase("calc");
    assert UnknownTool("Calc")[21] != UnknownTool("calc")[21];
  }

  /** The unknown-tool error names the tool: it can be read back from the reply. */
  lemma UnknownToolNamesTool(name: string)
    ensures var r := UnknownTool(name); r[21..|r| - 1] == name
  {
  }
}

=== FILE: wrappers.dfy ===
/** `Option` and `Result`, shared by the modules of the agent model. */
module Wrappers {

  /** Python's `Optional[T]`: a value or `None`. */
  datatype Option<+T> = None | Some(value: T) {

    /** The carried value, or `default` for `None`. On an optional string
        with `default` the empty string, this is Python's `x or ""`, since
        the one falsy string is the empty one. */
    function GetOr(default: T): T {
      match this
      case Some(v) => v
      case None => default
    }
  }

  /** The outcome of an operation that may raise: a value or the raised error. */
  datatype Result<+R, +E> = Success(value: R) | Failure(error: E)
}
